=== FILE: README.md ===
# MatchRoom chat core in Dafny

A model of the decision logic in the MatchRoom server (`server.js`), a roommate-matching service. Its real-time direct-messaging core is modelled together with three small pure pieces of the HTTP API.

- **Conversation addressing** (`rooms.dfy`): `dmRoom(a, b)` builds `"dm:<min>:<max>"`, and each connection joins its inbox `"user:<id>"`. Ids are written as template literals write safe integers, as an optional minus sign and decimal digits with no leading zeros (`js.dfy`).
- **Chat state machine** (`chat.dfy`): the state is an append-only message log plus the live connections and their rooms. Each handler is a pure function from a state and an input to a new state plus the side effects it performed, in order:
  - `Joined` adds a room membership.
  - `Appended` is the INSERT into `messages`.
  - `Emitted` is an event sent to a room or to one socket.

  The handlers are admission plus connection (`Connect`), `dm:join` (`Join`) and `dm:send` (`Send`). `Run` folds a sequence of events. On top of these the model proves several things. No message is emitted before it is stored, and an accepted send stores exactly one record. A failed INSERT emits nothing. Connections never touch each other's state. Every reachable state is well formed. The model also counts how often each connection receives a message.
- **History** (`history.dfy`): the `dm:join` query (`WHERE a_id=? AND b_id=? ORDER BY ts ASC LIMIT 200`) is a pair filter, a stable insertion sort on `ts`, and a cut at 200 rows.
- **Whitespace trimming** (`text.dfy`): `String.prototype.trim`, with the WhiteSpace and LineTerminator sets of sections 12.2 and 12.3 of ECMA-262.
- **Bearer extraction** (`auth.dfy`): the `auth` middleware's case-sensitive `"Bearer "` prefix strip, a simplified form of section 2.1 of RFC 6750. JWT verification (RFC 7519) is an oracle `verify: string -> Option<Claims>`.
- **`compatScore`** (`compat.dfy`) and the **`/api/roomies` query builder** (`roomies.dfy`).

The store and the clock are parameters. `insertOk` and `queryOk` say whether the database call threw, and `now` stands for `Date.now()`.

Three behaviours of the code are easy to misread. The model follows the code:

- **History window.** `ORDER BY ts ASC LIMIT 200` returns the earliest 200 messages of a conversation, not the latest 200. `History.HistoryIsEarliest` states this. Once a conversation has 200 messages, a newer message is still stored and delivered live (`Chat.SendAppendsThenFansOut`). `Chat.NewestMissingFromFullHistory` shows that it is then missing from the history of every join made after the send, whatever events happen in between.
- **Target validation.** `dm:join` and `dm:send` reject a target only when `Number(...)` is 0 or NaN. A message to oneself and negative ids are accepted (`Chat.SelfSendIsAccepted`).
- **Inbox join.** The inbox room is joined on connection, not on `dm:join`.

## Model

| member | source | states |
|---|---|---|
| Js.IntToString | server.js:278 | the numeral is non-empty and has no colon. For n >= 0 it is all digits, with no leading zero unless it is "0". For n < 0 it is "-" followed by digits that do not start with 0 |
| Js.IntStringRoundTrip | server.js:272 | reading the numeral back gives the integer |
| Js.IntToStringInjective | server.js:272 | two integers have the same numeral iff they are equal |
| Rooms.UserRoom | server.js:278 | the name starts with "user:" and is longer than the prefix |
| Rooms.DmRoom | server.js:271-273 | the room name starts with "dm:" and is longer than the prefix |
| Rooms.DmRoomRoundTrip | server.js:271-273 | reading the room name back gives exactly (min(a,b), max(a,b)) |
| Rooms.DmRoomSymmetric | server.js:271-273 | dmRoom(a,b) == dmRoom(b,a) |
| Rooms.DmRoomInjective | server.js:271-273 | two pairs share a room iff they have the same min and max, so each unordered pair has exactly one room |
| Rooms.UserRoomInjective | server.js:278 | user:u == user:w iff u == w |
| Rooms.UserRoomIsNotDmRoom | server.js:278 | no inbox name is a conversation room name |
| Text.Trim | server.js:303 | the trimmed text has no white space at either end and is no longer than the input |
| Text.TrimDecomposes | server.js:303 | the input is white space, then the trimmed text, then white space |
| Text.TrimUnique | server.js:303 | any split into white space, a non-empty trimmed middle and white space has that middle as its trim |
| Text.TrimEmptyIff | server.js:303-304 | the trim is empty iff the text is all white space |
| Text.TrimIdempotent | server.js:303 | trimming twice equals trimming once |
| Auth.BearerToken | server.js:73-74 | a token exists iff the header starts with exactly "Bearer " and has more after it; the header is then "Bearer " + token |
| Auth.BearerRoundTrip | server.js:73-74 | "Bearer " + t yields t for every non-empty t |
| Auth.Authenticate | server.js:72-84 | 401 "No token" iff there is no Bearer token; otherwise the request passes iff verify accepts the stripped token, and fails with 401 "Invalid token" if not |
| Auth.NoTokenNeverVerifies | server.js:74-75 | without a Bearer token the answer is the same for every verifier: verify is never consulted |
| Auth.BearerEdgeCases | server.js:73-75 | a lower-case "bearer", the bare "Bearer " and a missing header all give "No token" |
| Auth.Admit | server.js:260-269 | a socket is admitted iff a token is present and verify accepts it, with exactly verify's claims; otherwise it is refused with "Invalid token" |
| History.SortByTs | server.js:293 | the result is non-decreasing in ts and is a permutation of its input |
| History.HistoryRows | server.js:289-296 | the history is sorted by ts, holds min(200, count) rows, and is a sub-multiset of the pair's rows |
| History.PairRowsMembership | server.js:290-292 | a row is among the pair's rows iff some log entry with (a_id, b_id) = (a, b) projects to it |
| History.HistoryOnlyFromPair | server.js:289-296 | every history row comes from a log entry of the requested pair |
| History.HistoryIsEarliest | server.js:293-294 | every pair row left out is no earlier than any row returned |
| History.ShortHistoryIsComplete | server.js:289-296 | a conversation of at most 200 messages is returned whole |
| History.NewestBeyondLimit | server.js:293-294 | when the rows include 200 rows strictly earlier than x, x falls past the limit, whatever else the rows hold |
| History.PairRowsConcat | server.js:292 | the pair's rows of a concatenated log are the rows of each part, in order |
| History.NewestNeverReturned | server.js:289-296 | a record stored after 200 earlier rows of its conversation is missing from that conversation's history, however the log grows afterwards |
| History.PairRowsAppend | server.js:311-315 | appending a record extends the pair's rows by it exactly when it belongs to the pair |
| Chat.Connect | server.js:260-278 | a connection exists afterwards iff the token verified; the log never changes, no other socket changes and nothing is appended |
| Chat.ConnectJoinsInbox | server.js:275-278 | an admitted socket's only room is user:me; a refused socket leaves the state unchanged and only it gets "Invalid token" |
| Chat.Join | server.js:280-299 | the log is unchanged, other sockets are untouched, and every emitted event goes to the requesting socket only |
| Chat.JoinIgnoresFalsyTarget | server.js:281-282 | a target that is 0 or NaN changes nothing and emits nothing |
| Chat.JoinAddsRoomAndAnswers | server.js:284-298 | any other target adds exactly dmRoom(me, other) and keeps the other rooms; on success the pair's history goes to the caller only, and a failed query still leaves the room joined |
| Chat.Send | server.js:301-320 | the log grows only by the reported appends, at most one per send; each fanout follows its append; memberships are untouched |
| Chat.SendRejectsInvalid | server.js:302-304 | a target of 0 or NaN, or missing or all-white-space text, stores and emits nothing |
| Chat.SendFailsClosed | server.js:311-319 | when the INSERT throws, nothing is stored and nothing is emitted |
| Chat.SendAppendsThenFansOut | server.js:306-319 | an accepted send appends exactly the canonical record (earlier entries kept), then emits the identical message to dmRoom, user:other and user:me, in that order |
| Chat.StoreThenFanOutFramed | server.js:310-319 | the effects of an accepted send append exactly the one record, and each of the three emits carries that record's message after it |
| Chat.FanOutDeliveries | server.js:317-319 | the three emits reach a connection once for each of dmRoom, user:other and user:me that it is a member of |
| Chat.SelfSendIsAccepted | server.js:302-304 | a send to oneself is stored, with from = to = me |
| Chat.InboxMembership | server.js:278 | in a valid state a connection is in user:u iff it belongs to u |
| Chat.SendDeliveries | server.js:317-319 | each connection receives the message once for being in the conversation room, once if it is the recipient's and once if it is the sender's |
| Chat.ConnectPreservesValid | server.js:275-278 | admission keeps every connection in its own inbox and only in conversation rooms otherwise |
| Chat.JoinPreservesValid | server.js:280-299 | a join only ever adds a conversation room |
| Chat.SendPreservesValid | server.js:301-320 | every stored record has the canonical pair, a truthy recipient and trimmed non-empty text |
| Chat.Apply | server.js:275-320 | every event keeps the log append-only, fanout after persist, and other connections untouched |
| Chat.RunLogIsAppendOnly | server.js:311-315 | over any run, the final log is the initial log followed by exactly the records appended, in order |
| Chat.RunPersistsBeforeFanout | server.js:311-319 | over any run, every emitted message was appended, as the same message, earlier in the run |
| Chat.RunPreservesValid | server.js:275-320 | validity holds after any run of events |
| Chat.ReachableIsValid | server.js:275-320 | every state reachable from the empty server is valid |
| Chat.SentMessageInLaterHistory | server.js:289-315 | after an accepted send into a conversation with fewer than 200 messages, the history of a join made right after the send includes the message |
| Chat.NewestMissingFromFullHistory | server.js:289-315 | with 200 earlier messages in the conversation, a newly sent one is missing from the history of every join after the send, after any further run of events |
| Chat.ScenarioSend | server.js:301-319 | user 3 sends "hi" to 7 at 1000: record (3,7,3,7,"hi",1000), emitted on dm:3:7, user:7, user:3 |
| Chat.ScenarioJoin | server.js:280-298 | user 7 then joins with 3 and gets exactly that one row |
| Compat.RoundDiv20 | server.js:172 | the integer q satisfies 20q - 10 <= diff < 20q + 10, so it is the nearest integer to diff/20 with halves rounded up |
| Compat.RoundDiv20IsJsRound | server.js:172 | it equals floor(diff/20 + 0.5) computed over the reals |
| Compat.BudgetBonus | server.js:170-173 | the bonus is at most 25, positive iff diff < 490, and 25 for equal budgets |
| Compat.BudgetBonusMonotone | server.js:170-173 | a larger budget gap never earns a larger bonus |
| Compat.CompatScore | server.js:167-175 | the score lies in [50, 100] |
| Compat.ClampIsNoOp | server.js:174 | the final clamp never changes the score |
| Compat.CompatSymmetric | server.js:167-175 | swapping the two profiles gives the same score |
| Compat.CompatBaseOnly | server.js:167-175 | without a shared style and without both budgets the score is exactly 50 |
| Compat.CompatPerfect | server.js:167-175 | a shared non-empty style and equal non-zero budgets give exactly 100 |
| Compat.CompatFullMeansClose | server.js:167-175 | a score of 100 requires a shared style and budgets less than 10 apart |
| Roomies.RoomiesQuery | server.js:182-187 | the number of "?" placeholders equals the number of params; there is one param per filled filter plus the caller's id, which comes first |
| Roomies.RoomiesQueryRendersConditions | server.js:182-187 | the statement is the SELECT plus the requested conditions joined with AND, and the i-th param is the i-th condition's value |
| Roomies.NoFiltersQuery | server.js:182-183 | with no filters only the caller is excluded |

## Left out

- The Express and socket.io transport is left out as I/O plumbing. This covers CORS (server.js:31-39), server start (server.js:254-258, 324-328) and the network delivery of emitted events. It also covers the per-socket room socket.io adds on its own, and the dropping of memberships on disconnect.
- JWT signing and verification and bcrypt hashing are foreign crypto libraries. `verify` is a function parameter.
- SQLite (`db.js`) is replaced by the in-memory log. Whether a query or insert throws is a boolean parameter. The SQL text of the message queries is not modelled.
- `Date.now()` is left out: the timestamp is a parameter.
- Concurrency is left out. Each handler is one atomic step, so the interleaving of other handlers at the `await` points is not modelled. This includes the point between a send's INSERT and its emits.
- Ids are taken to be safe integers (|n| < 2^53). `Number(...)` loses precision above that. From 10^21 on, `${n}` prints exponent form ("1e+21"), so such an id would name the rooms "dm:3:1e+21" and "user:1e+21". Neither effect is modelled.
- A `dm:join` or `dm:send` event sent with no payload or with `null` is left out. The listeners destructure their argument (server.js:280, 301), so such an event throws a TypeError before any join, insert or emit. The throw happens inside an `async` listener, so it is an unhandled rejection, and on Node 15 and later with no `unhandledRejection` handler it ends the process: one `dm:join` without a payload stops the server. The model's input always carries a payload, and a missing field becomes the 0/NaN no-op.
- A rejected `all(...)` or `run(...)` (server.js:289, 311) is modelled only as "nothing is emitted" (`queryOk` / `insertOk` false). In the code the listener's promise rejects unhandled, and server.js installs no `unhandledRejection` handler. On Node 15 and later that ends the process and drops every connection and membership. The model instead keeps the server running with all sockets and rooms unchanged (`Chat.SendFailsClosed`, `Chat.JoinAddsRoomAndAnswers`).
- Parsing by `Number(...)` is left out. Ids are integers or NaN (`Js.Num`). Fractional values, infinities and numeric strings are not read from text.
- Non-string `text` payloads are left out. `String(text || "")` is modelled for a string or an absent value only.
- Register, login, profile, avatar upload, favorites and reviews routes (server.js:43-69, 87-164, 206-251) are single storage calls with no logic to prove.
- The mapping of `/api/roomies` result rows (server.js:189-203) and array-valued query parameters are left out.
- Chat.Connect: the claims are taken to carry an integer `id`. A verified token whose `id` is missing or not numeric would make `me` NaN, and that case is not modelled.
- History.SortByTs: rows with equal `ts` keep their log order. SQL leaves that order open, and every stated property relies only on sortedness and the multiset of rows.
- Compat.CompatScore: budgets are whole non-negative numbers. Fractional or negative budgets are not modelled.

=== FILE: auth.dfy ===
/** Credential handling: the HTTP `auth` middleware, which takes the token
    out of an `Authorization: Bearer <token>` header (a case-sensitive,
    simplified form of section 2.1 of RFC 6750), and the socket admission
    step. Verifying the JSON Web Token itself (RFC 7519: signature, expiry)
    is an oracle `verify` that yields the token's claims or fails. */
module Auth {
  import opened Js

  /** The claims a verified token carries: `{ id, email }`. */
  datatype Claims = Claims(id: int, email: string)

  /** A token verifier: Some(claims) on success, None where `jwt.verify` throws. */
  type Verifier = string -> Option<Claims>

  const BearerPrefix := "Bearer "
  const NoToken := "No token"
  const InvalidToken := "Invalid token"
  const Unauthorized := 401

  /** The middleware's verdict: continue with the claims as `req.user`, or
      answer with a status and an error message. */
  datatype HttpAuth = Pass(user: Claims) | Reject(status: int, error: string)

  /** An `Authorization` header made of the exact "Bearer " prefix followed
      by at least one character. */
  predicate HasBearerToken(header: Option<string>) {
    header.Some? && |header.value| > |BearerPrefix| && header.value[..|BearerPrefix|] == BearerPrefix
  }

  /** The token of an `Authorization` header: the text after an exact
      "Bearer " prefix, or None ("No token") when the prefix is missing or
      nothing follows it. An absent header is read as "". */
  function BearerToken(header: Option<string>): (t: Option<string>)
    ensures t.Some? <==> HasBearerToken(header)
    ensures t.Some? ==> header == Some(BearerPrefix + t.value) && t.value != []
  {
    var h := header.GetOr("");
    var token := if |h| >= |BearerPrefix| && h[..|BearerPrefix|] == BearerPrefix then h[|BearerPrefix|..] else "";
    if token == "" then None
    else
      assert h == h[..|BearerPrefix|] + token;
      Some(token)
  }

  /** The `auth` middleware: 401 "No token" without a token, 401 "Invalid
      token" when verification fails, otherwise the verified claims. */
  function Authenticate(header: Option<string>, verify: Verifier): (r: HttpAuth)
    ensures r == Reject(Unauthorized, NoToken) <==> !HasBearerToken(header)
    ensures HasBearerToken(header) ==>
              var token := header.value[|BearerPrefix|..];
              && (r.Pass? <==> verify(token).Some?)
              && (r.Pass? ==> verify(token) == Some(r.user))
              && (r.Reject? ==> r == Reject(Unauthorized, InvalidToken))
  {
    match BearerToken(header)
    case None => Reject(Unauthorized, NoToken)
    case Some(token) =>
      match verify(token)
      case None => Reject(Unauthorized, InvalidToken)
      case Some(claims) => Pass(claims)
  }

  /** A well-formed Bearer header hands exactly its token to the verifier. */
  lemma BearerRoundTrip(token: string)
    requires token != []
    ensures BearerToken(Some(BearerPrefix + token)) == Some(token)
  {
    assert (BearerPrefix + token)[..|BearerPrefix|] == BearerPrefix;
    assert (BearerPrefix + token)[|BearerPrefix|..] == token;
  }

  /** Without a usable Bearer header the answer does not depend on the
      verifier at all: the token is never verified. */
  lemma NoTokenNeverVerifies(header: Option<string>, v1: Verifier, v2: Verifier)
    requires BearerToken(header).None?
    ensures Authenticate(header, v1) == Authenticate(header, v2) == Reject(Unauthorized, NoToken)
  {
  }

  /** The prefix is case-sensitive and the bare prefix carries no token. */
  lemma BearerEdgeCases(verify: Verifier)
    ensures Authenticate(Some("bearer abc"), verify) == Reject(Unauthorized, NoToken)
    ensures Authenticate(Some("Bearer "), verify) == Reject(Unauthorized, NoToken)
    ensures Authenticate(None, verify) == Reject(Unauthorized, NoToken)
  {
    assert "bearer abc"[..|BearerPrefix|][0] != BearerPrefix[0];
  }

  /** The outcome of a socket handshake. */
  datatype Admission = Admitted(user: Claims) | Refused(error: string)

  /** Socket admission (`io.use`): the handshake's `auth.token` is always
      handed to `jwt.verify`, which throws for a missing token; any failure
      refuses the connection with "Invalid token". */
  function Admit(token: Option<string>, verify: Verifier): (r: Admission)
    ensures r.Admitted? <==> token.Some? && verify(token.value).Some?
    ensures r.Admitted? ==> Some(r.user) == verify(token.value)
    ensures r.Refused? ==> r.error == InvalidToken
  {
    match token
    case None => Refused(InvalidToken)
    case Some(t) =>
      match verify(t)
      case None => Refused(InvalidToken)
      case Some(claims) => Admitted(claims)
  }
}

=== FILE: chat.dfy ===
/** The socket.io chat core: admission, the inbox join on connection,
    `dm:join` (join the conversation room, answer with its history) and
    `dm:send` (validate, persist, then fan out to three rooms).

    Each handler is one atomic step from a state to a new state plus the
    side effects it performed, in the order it performed them. The store
    and the clock are parameters: `queryOk`/`insertOk` say whether the
    database call succeeded, and `now` is `Date.now()`. */
module Chat {
  import opened Js
  import opened Rooms
  import opened History
  import Text
  import Auth

  type SocketId = nat

  /** A live connection: the verified user id (`me`) and its rooms. */
  datatype Conn = Conn(me: int, rooms: set<string>)

  /** The append-only message log and the live connections. */
  datatype State = State(log: seq<Msg>, sockets: map<SocketId, Conn>)

  datatype Target = ToRoom(room: string) | ToSocket(sid: SocketId)

  datatype Event =
    | DmMessage(msg: Row)                           // "dm:message"
    | DmHistory(otherUserId: int, rows: seq<Row>)   // "dm:history"
    | ConnectError(message: string)                 // admission refused

  /** A side effect: a room join, a row INSERTed, or an event emitted. */
  datatype Effect =
    | Joined(sid: SocketId, room: string)
    | Appended(rec: Msg)
    | Emitted(target: Target, event: Event)

  datatype Step = Step(state: State, effects: seq<Effect>)

  const Initial := State([], map[])

  /** The records a run of effects appended to the log, in order. */
  function Appends(effects: seq<Effect>): seq<Msg>
    decreases |effects|
  {
    if effects == [] then []
    else (if effects[0].Appended? then [effects[0].rec] else []) + Appends(effects[1..])
  }

  lemma AppendsNone(effects: seq<Effect>)
    requires forall i :: 0 <= i < |effects| ==> !effects[i].Appended?
    ensures Appends(effects) == []
    decreases |effects|
  {
    if effects != [] {
      AppendsNone(effects[1..]);
    }
  }

  /** Every live message emitted was appended, as that same message, by an
      earlier effect: nothing is broadcast that is not already stored. */
  predicate PersistBeforeFanout(effects: seq<Effect>) {
    forall j :: 0 <= j < |effects| && effects[j].Emitted? && effects[j].event.DmMessage? ==>
      exists i :: 0 <= i < j && effects[i].Appended? && Project(effects[i].rec) == effects[j].event.msg
  }

  /** What every handler promises: the log changes only by the appends it
      reports, every fanout follows its append, and no other connection's
      state is touched. */
  predicate Framed(s: State, r: Step, sid: SocketId) {
    && r.state.log == s.log + Appends(r.effects)
    && PersistBeforeFanout(r.effects)
    && (forall x :: x in s.sockets && x != sid ==> x in r.state.sockets && r.state.sockets[x] == s.sockets[x])
    && (forall x :: x in r.state.sockets ==> x in s.sockets || x == sid)
  }

  /** A stored message: canonical pair, truthy recipient, trimmed non-empty text. */
  predicate WellFormed(m: Msg) {
    && m.aId == Min(m.fromId, m.toId)
    && m.bId == Max(m.fromId, m.toId)
    && m.toId != 0
    && m.text != []
    && Text.Trim(m.text) == m.text
  }

  /** A connection is in its own inbox and otherwise only in conversation rooms. */
  predicate ValidConn(c: Conn) {
    && UserRoom(c.me) in c.rooms
    && forall room :: room in c.rooms ==> room == UserRoom(c.me) || IsDmRoom(room)
  }

  predicate Valid(s: State) {
    && (forall i :: 0 <= i < |s.log| ==> WellFormed(s.log[i]))
    && (forall sid :: sid in s.sockets ==> ValidConn(s.sockets[sid]))
  }

  /* ---------------- handlers ---------------- */

  /** `io.use` admission followed by the `connection` handler: a verified
      socket joins `user:<me>`; a refused one gets "Invalid token" and no
      connection state. */
  function Connect(s: State, sid: SocketId, token: Option<string>, verify: Auth.Verifier): (r: Step)
    requires sid !in s.sockets
    ensures Framed(s, r, sid)
    ensures Appends(r.effects) == []
    ensures sid in r.state.sockets <==> token.Some? && verify(token.value).Some?
  {
    match Auth.Admit(token, verify)
    case Refused(error) => Step(s, [Emitted(ToSocket(sid), ConnectError(error))])
    case Admitted(claims) =>
      var me := claims.id;
      Step(s.(sockets := s.sockets[sid := Conn(me, {UserRoom(me)})]), [Joined(sid, UserRoom(me))])
  }

  /** `dm:join`: ignore a falsy target; otherwise join `dmRoom(me, other)`,
      then query the pair's history and emit it to this socket only. A failed
      query leaves the room joined and emits nothing. */
  function Join(s: State, sid: SocketId, otherUserId: Num, queryOk: bool): (r: Step)
    requires sid in s.sockets
    ensures Framed(s, r, sid)
    ensures r.state.log == s.log
    ensures forall e :: e in r.effects && e.Emitted? ==> e.target == ToSocket(sid)
  {
    var conn := s.sockets[sid];
    if !Truthy(otherUserId) then Step(s, [])
    else
      var other := otherUserId.v;
      var room := DmRoom(conn.me, other);
      var joined := s.(sockets := s.sockets[sid := conn.(rooms := conn.rooms + {room})]);
      var rows := HistoryRows(s.log, Min(conn.me, other), Max(conn.me, other));
      var effects := [Joined(sid, room)] + (if queryOk then [Emitted(ToSocket(sid), DmHistory(other, rows))] else []);
      AppendsNone(effects);
      Step(joined, effects)
  }

  /** The message `dm:send` builds, as its INSERT stores it. */
  function Record(me: int, other: int, text: string, now: int): Msg {
    Msg(Min(me, other), Max(me, other), me, other, text, now)
  }

  /** `dm:send`: drop a falsy target or blank text; otherwise INSERT the
      message and, only once that succeeded, emit it to the conversation
      room, the recipient's inbox and the sender's inbox. */
  function Send(s: State, sid: SocketId, to: Num, text: Option<string>, now: int, insertOk: bool): (r: Step)
    requires sid in s.sockets
    ensures Framed(s, r, sid)
    ensures r.state.sockets == s.sockets
    ensures |Appends(r.effects)| <= 1
  {
    var me := s.sockets[sid].me;
    var cleanText := Text.Trim(text.GetOr(""));
    if !Truthy(to) || cleanText == "" then Step(s, [])
    else if !insertOk then Step(s, [])
    else
      var rec := Record(me, to.v, cleanText, now);
      StoreThenFanOutFramed(rec, me, to.v);
      Step(s.(log := s.log + [rec]), StoreThenFanOut(rec, me, to.v))
  }

  /** The INSERT of `rec`, then the same message to the conversation room,
      the recipient's inbox and the sender's inbox. */
  function StoreThenFanOut(rec: Msg, me: int, other: int): seq<Effect> {
    var msg := Project(rec);
    [ Appended(rec),
      Emitted(ToRoom(DmRoom(me, other)), DmMessage(msg)),
      Emitted(ToRoom(UserRoom(other)), DmMessage(msg)),
      Emitted(ToRoom(UserRoom(me)), DmMessage(msg)) ]
  }

  lemma StoreThenFanOutFramed(rec: Msg, me: int, other: int)
    ensures Appends(StoreThenFanOut(rec, me, other)) == [rec]
    ensures PersistBeforeFanout(StoreThenFanOut(rec, me, other))
  {
    var effects := StoreThenFanOut(rec, me, other);
    AppendsNone(effects[1..]);
    forall j | 0 <= j < |effects| && effects[j].Emitted? && effects[j].event.DmMessage?
      ensures exists i :: 0 <= i < j && effects[i].Appended? && Project(effects[i].rec) == effects[j].event.msg
    {
      assert effects[0].Appended? && Project(effects[0].rec) == effects[j].event.msg;
    }
  }

  /* ---------------- runs of many events ---------------- */

  /** An event arriving at the server. */
  datatype Input =
    | ConnectIn(sid: SocketId, token: Option<string>)
    | JoinIn(sid: SocketId, otherUserId: Num, queryOk: bool)
    | SendIn(sid: SocketId, to: Num, text: Option<string>, now: int, insertOk: bool)

  /** One event; events for a socket id that is not (or already) connected
      are not delivered by the transport and change nothing. */
  function Apply(s: State, input: Input, verify: Auth.Verifier): (r: Step)
    ensures Framed(s, r, input.sid)
  {
    match input
    case ConnectIn(sid, token) =>
      if sid in s.sockets then Step(s, []) else Connect(s, sid, token, verify)
    case JoinIn(sid, other, queryOk) =>
      if sid !in s.sockets then Step(s, []) else Join(s, sid, other, queryOk)
    case SendIn(sid, to, text, now, insertOk) =>
      if sid !in s.sockets then Step(s, []) else Send(s, sid, to, text, now, insertOk)
  }

  /** The events in order; the effects of all of them, concatenated. */
  function Run(s: State, inputs: seq<Input>, verify: Auth.Verifier): Step
    decreases |inputs|
  {
    if inputs == [] then Step(s, [])
    else
      var first := Apply(s, inputs[0], verify);
      var rest := Run(first.state, inputs[1..], verify);
      Step(rest.state, first.effects + rest.effects)
  }

  /* ---------------- properties of single steps ---------------- */

  /** Admission: a verified token yields a connection whose only room is its
      own inbox; a refused one changes nothing and tells only that socket. */
  lemma ConnectJoinsInbox(s: State, sid: SocketId, token: Option<string>, verify: Auth.Verifier)
    requires sid !in s.sockets
    ensures var r := Connect(s, sid, token, verify);
      match Auth.Admit(token, verify)
      case Admitted(claims) =>
        && r.state.sockets[sid] == Conn(claims.id, {UserRoom(claims.id)})
        && r.effects == [Joined(sid, UserRoom(claims.id))]
      case Refused(_) =>
        && r.state == s
        && r.effects == [Emitted(ToSocket(sid), ConnectError(Auth.InvalidToken))]
  {
  }

  /** A join whose target is 0 or NaN is a silent no-op. */
  lemma JoinIgnoresFalsyTarget(s: State, sid: SocketId, otherUserId: Num, queryOk: bool)
    requires sid in s.sockets && !Truthy(otherUserId)
    ensures Join(s, sid, otherUserId, queryOk) == Step(s, [])
  {
  }

  /** Any other join (the caller itself and negative ids included) adds
      exactly the conversation room and keeps every other room; the
      history, when the query succeeds, goes to the caller alone. */
  lemma JoinAddsRoomAndAnswers(s: State, sid: SocketId, other: int, queryOk: bool)
    requires sid in s.sockets && other != 0
    ensures var r := Join(s, sid, Int(other), queryOk);
      var me := s.sockets[sid].me;
      && r.state.sockets[sid] == Conn(me, s.sockets[sid].rooms + {DmRoom(me, other)})
      && r.effects[0] == Joined(sid, DmRoom(me, other))
      && (queryOk ==> r.effects == [
            Joined(sid, DmRoom(me, other)),
            Emitted(ToSocket(sid), DmHistory(other, HistoryRows(s.log, Min(me, other), Max(me, other))))])
      && (!queryOk ==> r.effects == [Joined(sid, DmRoom(me, other))])
  {
  }

  /** A send with a target of 0 or NaN, or with text that is missing or
      only white space, stores nothing and emits nothing. */
  lemma SendRejectsInvalid(s: State, sid: SocketId, to: Num, text: Option<string>, now: int, insertOk: bool)
    requires sid in s.sockets
    requires !Truthy(to) || Text.AllWhiteSpace(text.GetOr(""))
    ensures Send(s, sid, to, text, now, insertOk) == Step(s, [])
  {
    Text.TrimEmptyIff(text.GetOr(""));
  }

  /** Fail closed: when the INSERT throws nothing is stored or emitted. */
  lemma SendFailsClosed(s: State, sid: SocketId, to: Num, text: Option<string>, now: int)
    requires sid in s.sockets
    ensures Send(s, sid, to, text, now, false) == Step(s, [])
  {
  }

  /** An accepted send stores exactly one canonical record and then emits
      the identical message to dmRoom(me, other), user:other and user:me,
      in that order. */
  lemma SendAppendsThenFansOut(s: State, sid: SocketId, other: int, text: string, now: int)
    requires sid in s.sockets && other != 0 && !Text.AllWhiteSpace(text)
    ensures var r := Send(s, sid, Int(other), Some(text), now, true);
      var me := s.sockets[sid].me;
      var clean := Text.Trim(text);
      var rec := Msg(Min(me, other), Max(me, other), me, other, clean, now);
      var msg := Row(me, other, clean, now);
      && r.state.log == s.log + [rec]
      && r.state.log[..|s.log|] == s.log
      && Appends(r.effects) == [rec]
      && r.effects == [
           Appended(rec),
           Emitted(ToRoom(DmRoom(me, other)), DmMessage(msg)),
           Emitted(ToRoom(UserRoom(other)), DmMessage(msg)),
           Emitted(ToRoom(UserRoom(me)), DmMessage(msg))]
  {
    Text.TrimEmptyIff(text);
    var r := Send(s, sid, Int(other), Some(text), now, true);
    assert r.state.log[..|s.log|] == s.log;
  }

  /** Sending to oneself is not rejected: the record is stored with
      from = to = me and goes to dm:me:me and, twice, to user:me. */
  lemma SelfSendIsAccepted(s: State, sid: SocketId, text: string, now: int)
    requires sid in s.sockets && s.sockets[sid].me != 0 && !Text.AllWhiteSpace(text)
    ensures var me := s.sockets[sid].me;
      var r := Send(s, sid, Int(me), Some(text), now, true);
      && |r.state.log| == |s.log| + 1
      && r.state.log[|s.log|].fromId == r.state.log[|s.log|].toId == me
  {
    SendAppendsThenFansOut(s, sid, s.sockets[sid].me, text, now);
  }

  /* ---------------- live delivery ---------------- */

  /** Whether effect `e` reaches socket `x`: a room broadcast reaches every
      member of the room, `socket.emit` only that socket. */
  predicate Reaches(s: State, e: Effect, x: SocketId) {
    match e
    case Emitted(ToRoom(room), _) => x in s.sockets && room in s.sockets[x].rooms
    case Emitted(ToSocket(y), _) => x == y
    case _ => false
  }

  /** How many of the effects reach socket `x`. */
  function Deliveries(s: State, effects: seq<Effect>, x: SocketId): nat
    decreases |effects|
  {
    if effects == [] then 0
    else (if Reaches(s, effects[0], x) then 1 else 0) + Deliveries(s, effects[1..], x)
  }

  /** In a valid state a connection is in user:u exactly when it belongs to u. */
  lemma InboxMembership(c: Conn, u: int)
    requires ValidConn(c)
    ensures UserRoom(u) in c.rooms <==> c.me == u
  {
    UserRoomInjective(u, c.me);
    UserRoomIsNotDmRoom(u);
  }

  /** Live delivery of an accepted send, per connection: once for being in
      the conversation room, once for belonging to the recipient, once for
      belonging to the sender. Every connection of either participant gets
      it; a connection in several of these rooms gets it more than once. */
  lemma SendDeliveries(s: State, sid: SocketId, other: int, text: string, now: int, x: SocketId)
    requires sid in s.sockets && x in s.sockets && ValidConn(s.sockets[x])
    requires other != 0 && !Text.AllWhiteSpace(text)
    ensures var r := Send(s, sid, Int(other), Some(text), now, true);
      var me := s.sockets[sid].me;
      var c := s.sockets[x];
      Deliveries(r.state, r.effects, x) ==
        (if DmRoom(me, other) in c.rooms then 1 else 0)
        + (if c.me == other then 1 else 0)
        + (if c.me == me then 1 else 0)
  {
    SendAppendsThenFansOut(s, sid, other, text, now);
    var r := Send(s, sid, Int(other), Some(text), now, true);
    var me := s.sockets[sid].me;
    InboxMembership(s.sockets[x], other);
    InboxMembership(s.sockets[x], me);
    FanOutDeliveries(r.state, r.state.log[|s.log|], me, other, x);
  }

  /** Each of the three emits of a send reaches `x` once if `x` is in its room. */
  lemma FanOutDeliveries(st: State, rec: Msg, me: int, other: int, x: SocketId)
    requires x in st.sockets
    ensures var rooms := st.sockets[x].rooms;
      Deliveries(st, StoreThenFanOut(rec, me, other), x) ==
        (if DmRoom(me, other) in rooms then 1 else 0)
        + (if UserRoom(other) in rooms then 1 else 0)
        + (if UserRoom(me) in rooms then 1 else 0)
  {
    StoreThenEmitThree(st, rec, DmRoom(me, other), UserRoom(other), UserRoom(me), x);
  }

  /** An append followed by three room emits: each emit counts once when
      `x` sits in its room; the append reaches nobody. */
  lemma StoreThenEmitThree(st: State, rec: Msg, r1: string, r2: string, r3: string, x: SocketId)
    requires x in st.sockets
    ensures var rooms := st.sockets[x].rooms;
      var msg := DmMessage(Project(rec));
      Deliveries(st, [Appended(rec), Emitted(ToRoom(r1), msg), Emitted(ToRoom(r2), msg), Emitted(ToRoom(r3), msg)], x)
        == (if r1 in rooms then 1 else 0) + (if r2 in rooms then 1 else 0) + (if r3 in rooms then 1 else 0)
  {
    var msg := DmMessage(Project(rec));
    var rooms := st.sockets[x].rooms;
    var to3 := [Emitted(ToRoom(r3), msg)];
    var to2 := [Emitted(ToRoom(r2), msg)] + to3;
    var to1 := [Emitted(ToRoom(r1), msg)] + to2;
    assert [Appended(rec), Emitted(ToRoom(r1), msg), Emitted(ToRoom(r2), msg), Emitted(ToRoom(r3), msg)]
        == [Appended(rec)] + to1;
    calc {
      Deliveries(st, [Appended(rec)] + to1, x);
      == { DeliveriesCons(st, Appended(rec), to1, x); }
      Deliveries(st, to1, x);
      == { DeliveriesCons(st, to1[0], to2, x); }
      (if r1 in rooms then 1 else 0) + Deliveries(st, to2, x);
      == { DeliveriesCons(st, to2[0], to3, x); }
      (if r1 in rooms then 1 else 0) + (if r2 in rooms then 1 else 0) + Deliveries(st, to3, x);
      == { DeliveriesCons(st, to3[0], [], x); }
      (if r1 in rooms then 1 else 0) + (if r2 in rooms then 1 else 0) + (if r3 in rooms then 1 else 0);
    }
  }

  /** Unfolds `Deliveries` once: the first effect, then the rest. */
  lemma DeliveriesCons(st: State, e: Effect, rest: seq<Effect>, x: SocketId)
    ensures Deliveries(st, [e] + rest, x) == (if Reaches(st, e, x) then 1 else 0) + Deliveries(st, rest, x)
  {
    assert ([e] + rest)[1..] == rest;
  }

  /* ---------------- invariants ---------------- */

  lemma ConnectPreservesValid(s: State, sid: SocketId, token: Option<string>, verify: Auth.Verifier)
    requires Valid(s) && sid !in s.sockets
    ensures Valid(Connect(s, sid, token, verify).state)
  {
  }

  lemma JoinPreservesValid(s: State, sid: SocketId, otherUserId: Num, queryOk: bool)
    requires Valid(s) && sid in s.sockets
    ensures Valid(Join(s, sid, otherUserId, queryOk).state)
  {
    if Truthy(otherUserId) {
      var conn := s.sockets[sid];
      JoinedConnIsValid(conn, otherUserId.v);
      assert Join(s, sid, otherUserId, queryOk).state
          == s.(sockets := s.sockets[sid := conn.(rooms := conn.rooms + {DmRoom(conn.me, otherUserId.v)})]);
    }
  }

  /** Adding a conversation room keeps a connection valid. */
  lemma JoinedConnIsValid(conn: Conn, other: int)
    requires ValidConn(conn)
    ensures ValidConn(conn.(rooms := conn.rooms + {DmRoom(conn.me, other)}))
  {
    DmRoomRoundTrip(conn.me, other);
  }

  lemma SendPreservesValid(s: State, sid: SocketId, to: Num, text: Option<string>, now: int, insertOk: bool)
    requires Valid(s) && sid in s.sockets
    ensures Valid(Send(s, sid, to, text, now, insertOk).state)
  {
    Text.TrimIdempotent(text.GetOr(""));
  }

  lemma AppendsConcat(e1: seq<Effect>, e2: seq<Effect>)
    ensures Appends(e1 + e2) == Appends(e1) + Appends(e2)
    decreases |e1|
  {
    if e1 != [] {
      assert (e1 + e2)[0] == e1[0];
      assert (e1 + e2)[1..] == e1[1..] + e2;
      AppendsConcat(e1[1..], e2);
    } else {
      assert e1 + e2 == e2;
    }
  }

  lemma PersistBeforeFanoutConcat(e1: seq<Effect>, e2: seq<Effect>)
    requires PersistBeforeFanout(e1) && PersistBeforeFanout(e2)
    ensures PersistBeforeFanout(e1 + e2)
  {
    var e := e1 + e2;
    forall j | 0 <= j < |e| && e[j].Emitted? && e[j].event.DmMessage?
      ensures exists i :: 0 <= i < j && e[i].Appended? && Project(e[i].rec) == e[j].event.msg
    {
      if j < |e1| {
        assert e1[j] == e[j];
        var i :| 0 <= i < j && e1[i].Appended? && Project(e1[i].rec) == e1[j].event.msg;
        assert e[i] == e1[i];
      } else {
        assert e2[j - |e1|] == e[j];
        var i :| 0 <= i < j - |e1| && e2[i].Appended? && Project(e2[i].rec) == e2[j - |e1|].event.msg;
        assert e[|e1| + i] == e2[i];
      }
    }
  }

  lemma ApplyPreservesValid(s: State, input: Input, verify: Auth.Verifier)
    requires Valid(s)
    ensures Valid(Apply(s, input, verify).state)
  {
    match input
    case ConnectIn(sid, token) =>
      if sid !in s.sockets { ConnectPreservesValid(s, sid, token, verify); }
    case JoinIn(sid, other, queryOk) =>
      if sid in s.sockets { JoinPreservesValid(s, sid, other, queryOk); }
    case SendIn(sid, to, text, now, insertOk) =>
      if sid in s.sockets { SendPreservesValid(s, sid, to, text, now, insertOk); }
  }

  /** Over any run of events the log only ever grows, and by exactly the
      records the run reports appending, in order. */
  lemma {:induction false} RunLogIsAppendOnly(s: State, inputs: seq<Input>, verify: Auth.Verifier)
    ensures Run(s, inputs, verify).state.log == s.log + Appends(Run(s, inputs, verify).effects)
    decreases |inputs|
  {
    if inputs != [] {
      var first := Apply(s, inputs[0], verify);
      RunLogIsAppendOnly(first.state, inputs[1..], verify);
      var rest := Run(first.state, inputs[1..], verify);
      AppendsConcat(first.effects, rest.effects);
    } else {
      assert Appends([]) == [];
    }
  }

  /** Over any run of events, every message emitted live was stored, as
      that same message, earlier in the run. */
  lemma {:induction false} RunPersistsBeforeFanout(s: State, inputs: seq<Input>, verify: Auth.Verifier)
    ensures PersistBeforeFanout(Run(s, inputs, verify).effects)
    decreases |inputs|
  {
    if inputs != [] {
      var first := Apply(s, inputs[0], verify);
      RunPersistsBeforeFanout(first.state, inputs[1..], verify);
      var rest := Run(first.state, inputs[1..], verify);
      PersistBeforeFanoutConcat(first.effects, rest.effects);
    }
  }

  /** Validity survives any run of events. */
  lemma {:induction false} RunPreservesValid(s: State, inputs: seq<Input>, verify: Auth.Verifier)
    requires Valid(s)
    ensures Valid(Run(s, inputs, verify).state)
    decreases |inputs|
  {
    if inputs != [] {
      var first := Apply(s, inputs[0], verify);
      ApplyPreservesValid(s, inputs[0], verify);
      RunPreservesValid(first.state, inputs[1..], verify);
    }
  }

  /** Every state reachable from the empty server is valid: each stored
      message is well formed and each connection sits in its own inbox. */
  lemma ReachableIsValid(inputs: seq<Input>, verify: Auth.Verifier)
    ensures Valid(Run(Initial, inputs, verify).state)
  {
    RunPreservesValid(Initial, inputs, verify);
  }

  /* ---------------- history after a send ---------------- */

  /** Persist before fanout, seen from a client: after an accepted send, a
      join on that conversation whose backlog was under 200 returns the
      new message. */
  lemma SentMessageInLaterHistory(s: State, sid: SocketId, other: int, text: string, now: int)
    requires sid in s.sockets && other != 0 && !Text.AllWhiteSpace(text)
    requires var me := s.sockets[sid].me;
      |PairRows(s.log, Min(me, other), Max(me, other))| < Limit
    ensures var me := s.sockets[sid].me;
      var r := Send(s, sid, Int(other), Some(text), now, true);
      Row(me, other, Text.Trim(text), now) in HistoryRows(r.state.log, Min(me, other), Max(me, other))
  {
    var me := s.sockets[sid].me;
    var a, b := Min(me, other), Max(me, other);
    SendAppendsThenFansOut(s, sid, other, text, now);
    var rec := Record(me, other, Text.Trim(text), now);
    var log' := s.log + [rec];
    PairRowsAppend(s.log, rec, a, b);
    ShortHistoryIsComplete(log', a, b);
    var rows := PairRows(log', a, b);
    assert rows[|rows| - 1] == Project(rec);
    assert Project(rec) in multiset(HistoryRows(log', a, b));
  }

  /** The history is the EARLIEST 200 messages: once a conversation holds
      200 messages, a newer one is stored and delivered live but is missing
      from the history of every join made at any point after the send,
      whatever else happens in between. */
  lemma NewestMissingFromFullHistory(s: State, sid: SocketId, other: int, text: string, now: int,
                                     later: seq<Input>, verify: Auth.Verifier)
    requires sid in s.sockets && other != 0 && !Text.AllWhiteSpace(text)
    requires var me := s.sockets[sid].me;
      var rows := PairRows(s.log, Min(me, other), Max(me, other));
      |rows| >= Limit && forall k :: 0 <= k < |rows| ==> rows[k].ts < now
    ensures var me := s.sockets[sid].me;
      var r := Send(s, sid, Int(other), Some(text), now, true);
      var final := Run(r.state, later, verify).state;
      Row(me, other, Text.Trim(text), now) !in HistoryRows(final.log, Min(me, other), Max(me, other))
  {
    var me := s.sockets[sid].me;
    var a, b := Min(me, other), Max(me, other);
    SendAppendsThenFansOut(s, sid, other, text, now);
    var r := Send(s, sid, Int(other), Some(text), now, true);
    var rec := Record(me, other, Text.Trim(text), now);
    var run := Run(r.state, later, verify);
    RunLogIsAppendOnly(r.state, later, verify);
    assert run.state.log == s.log + [rec] + Appends(run.effects);
    NewestNeverReturned(s.log, rec, Appends(run.effects), a, b);
  }

  /** Users 3 and 7, each with one connection sitting in its inbox. */
  const Pair37 := State([], map[1 := Conn(3, {"user:3"}), 2 := Conn(7, {"user:7"})])

  /** User 3 sends "hi" to 7 at 1000: the stored record is
      (3, 7, 3, 7, "hi", 1000) and the fanout goes to dm:3:7, user:7 and
      user:3. */
  lemma ScenarioSend()
    ensures var sent := Send(Pair37, 1, Int(7), Some("hi"), 1000, true);
      && sent.state.log == [Msg(3, 7, 3, 7, "hi", 1000)]
      && sent.effects == [
           Appended(Msg(3, 7, 3, 7, "hi", 1000)),
           Emitted(ToRoom("dm:3:7"), DmMessage(Row(3, 7, "hi", 1000))),
           Emitted(ToRoom("user:7"), DmMessage(Row(3, 7, "hi", 1000))),
           Emitted(ToRoom("user:3"), DmMessage(Row(3, 7, "hi", 1000)))]
  {
    HiIsClean();
    SendAppendsThenFansOut(Pair37, 1, 7, "hi", 1000);
    RoomNames37();
  }

  lemma HiIsClean()
    ensures Text.Trim("hi") == "hi" && !Text.AllWhiteSpace("hi")
  {
    Text.TrimOfTrimmed("hi");
    assert !Text.IsWhiteSpace("hi"[0]);
  }

  lemma RoomNames37()
    ensures DmRoom(3, 7) == "dm:3:7" && UserRoom(7) == "user:7" && UserRoom(3) == "user:3"
  {
    assert IntToString(3) == "3" && IntToString(7) == "7";
  }

  /** User 7 then joins the conversation with 3 and receives the one row. */
  lemma ScenarioJoin()
    ensures var log := [Msg(3, 7, 3, 7, "hi", 1000)];
      var joined := Join(Pair37.(log := log), 2, Int(3), true);
      joined.effects[1] == Emitted(ToSocket(2), DmHistory(3, [Row(3, 7, "hi", 1000)]))
  {
    var log := [Msg(3, 7, 3, 7, "hi", 1000)];
    assert log[..0] == [];
    assert PairRows(log, 3, 7) == [Row(3, 7, "hi", 1000)];
    assert SortByTs([Row(3, 7, "hi", 1000)]) == [Row(3, 7, "hi", 1000)];
    JoinAddsRoomAndAnswers(Pair37.(log := log), 2, 3, true);
  }
}

=== FILE: compat.dfy ===
/** `compatScore(me, other)`: the compatibility shown beside each roomie.
    50 points to start, 25 more for the same living style, and up to 25
    more the closer the two budgets are; clamped to [0, 100]. */
module Compat {
  import opened Js

  /** The profile fields the score reads. A budget is a whole, non-negative
      amount; `null`/absent fields are None. */
  datatype Profile = Profile(estilo: Option<string>, presupuesto: Option<nat>)

  const BaseScore := 50
  const StyleBonus := 25
  const MaxBudgetBonus := 25

  /** `p?.estilo` is truthy: a profile exists and its style is a non-empty string. */
  predicate HasStyle(p: Option<Profile>) {
    p.Some? && p.value.estilo.Some? && p.value.estilo.value != ""
  }

  /** `p?.presupuesto` is truthy: a profile exists and its budget is non-zero. */
  predicate HasBudget(p: Option<Profile>) {
    p.Some? && p.value.presupuesto.Some? && p.value.presupuesto.value != 0
  }

  predicate SameStyle(me: Option<Profile>, other: Option<Profile>) {
    HasStyle(me) && HasStyle(other) && me.value.estilo == other.value.estilo
  }

  function Diff(x: nat, y: nat): (d: nat)
    ensures d == x - y || d == y - x
  {
    if x >= y then x - y else y - x
  }

  /** `Math.round(x)`: the nearest integer, halves rounded up. */
  function JsRound(x: real): int {
    (x + 0.5).Floor
  }

  /** `Math.round(diff / 20)` for a whole, non-negative `diff`, in integers. */
  function RoundDiv20(diff: nat): (q: nat)
    ensures 20 * q - 10 <= diff < 20 * q + 10
  {
    (diff + 10) / 20
  }

  /** `Math.max(0, 25 - Math.round(diff / 20))`. */
  function BudgetBonus(diff: nat): (b: nat)
    ensures b <= MaxBudgetBonus
    ensures b > 0 <==> diff < 490
    ensures diff == 0 ==> b == MaxBudgetBonus
  {
    Max(0, MaxBudgetBonus - RoundDiv20(diff)) as nat
  }

  /** The score before the final clamp. */
  function RawScore(me: Option<Profile>, other: Option<Profile>): int {
    BaseScore
    + (if SameStyle(me, other) then StyleBonus else 0)
    + (if HasBudget(me) && HasBudget(other)
       then BudgetBonus(Diff(me.value.presupuesto.value, other.value.presupuesto.value))
       else 0)
  }

  function CompatScore(me: Option<Profile>, other: Option<Profile>): (r: int)
    ensures BaseScore <= r <= 100
  {
    Min(100, Max(0, RawScore(me, other)))
  }

  /* ---------------- properties ---------------- */

  /** The integer form agrees with JavaScript's rounding of the quotient. */
  lemma RoundDiv20IsJsRound(diff: nat)
    ensures JsRound(diff as real / 20.0) == RoundDiv20(diff)
  {
    var q := (diff + 10) / 20;
    var rem := (diff + 10) % 20;
    assert diff + 10 == 20 * q + rem;
    assert diff as real / 20.0 + 0.5 == q as real + rem as real / 20.0;
    assert 0.0 <= rem as real / 20.0 < 1.0;
  }

  /** A larger budget gap never earns a larger bonus. */
  lemma BudgetBonusMonotone(d1: nat, d2: nat)
    requires d1 <= d2
    ensures BudgetBonus(d2) <= BudgetBonus(d1)
  {
  }

  /** The clamp never binds: the raw score already lies in [50, 100]. */
  lemma ClampIsNoOp(me: Option<Profile>, other: Option<Profile>)
    ensures CompatScore(me, other) == RawScore(me, other)
  {
  }

  /** Swapping the two profiles does not change the score. */
  lemma CompatSymmetric(me: Option<Profile>, other: Option<Profile>)
    ensures CompatScore(me, other) == CompatScore(other, me)
  {
    if HasBudget(me) && HasBudget(other) {
      assert Diff(me.value.presupuesto.value, other.value.presupuesto.value)
          == Diff(other.value.presupuesto.value, me.value.presupuesto.value);
    }
  }

  /** Without a shared style and without both budgets the score is the base 50. */
  lemma CompatBaseOnly(me: Option<Profile>, other: Option<Profile>)
    requires !SameStyle(me, other)
    requires !HasBudget(me) || !HasBudget(other)
    ensures CompatScore(me, other) == BaseScore
  {
  }

  /** Same style and the same non-zero budget give the full 100. */
  lemma CompatPerfect(me: Profile, other: Profile)
    requires me.estilo == other.estilo && HasStyle(Some(me))
    requires me.presupuesto == other.presupuesto && HasBudget(Some(me))
    ensures CompatScore(Some(me), Some(other)) == 100
  {
  }

  /** The score is 100 only for a shared style and budgets within 10 of each other. */
  lemma CompatFullMeansClose(me: Option<Profile>, other: Option<Profile>)
    requires CompatScore(me, other) == 100
    ensures SameStyle(me, other) && HasBudget(me) && HasBudget(other)
    ensures Diff(me.value.presupuesto.value, other.value.presupuesto.value) < 10
  {
  }
}

=== FILE: history.dfy ===
/** The message log and the history query run on `dm:join`:
    `SELECT from, to, text, ts FROM messages WHERE a_id=? AND b_id=?
     ORDER BY ts ASC LIMIT 200`. */
module History {
  import opened Js

  /** A row of the `messages` table: the canonical pair (a_id, b_id), the
      sender and recipient, the text and the server timestamp. */
  datatype Msg = Msg(aId: int, bId: int, fromId: int, toId: int, text: string, ts: int)

  /** The `{ from, to, text, ts }` shape shared by history rows and live
      `dm:message` payloads. */
  datatype Row = Row(from: int, to: int, text: string, ts: int)

  /** Rows per history answer. */
  const Limit := 200

  function Project(m: Msg): Row {
    Row(m.fromId, m.toId, m.text, m.ts)
  }

  predicate InPair(m: Msg, a: int, b: int) {
    m.aId == a && m.bId == b
  }

  /** The projected log entries of conversation (a, b), in log order. */
  function PairRows(log: seq<Msg>, a: int, b: int): (r: seq<Row>)
    ensures |r| <= |log|
    decreases |log|
  {
    if log == [] then []
    else
      var last := log[|log| - 1];
      PairRows(log[..|log| - 1], a, b) + (if InPair(last, a, b) then [Project(last)] else [])
  }

  predicate SortedByTs(rows: seq<Row>) {
    forall i, j :: 0 <= i < j < |rows| ==> rows[i].ts <= rows[j].ts
  }

  /** Puts `x` before the first row that is not earlier than it. */
  function InsertByTs(x: Row, s: seq<Row>): (r: seq<Row>)
    requires SortedByTs(s)
    ensures SortedByTs(r)
    ensures multiset(r) == multiset(s) + multiset{x}
    ensures |r| == |s| + 1
    ensures r[0] == x || (s != [] && r[0] == s[0])
    decreases |s|
  {
    if s == [] || x.ts <= s[0].ts then [x] + s
    else
      var tail := InsertByTs(x, s[1..]);
      ConsSorted(s[0], tail);
      assert s == [s[0]] + s[1..];
      [s[0]] + tail
  }

  /** A row no later than the head of a sorted sequence extends it sorted. */
  lemma ConsSorted(h: Row, t: seq<Row>)
    requires SortedByTs(t) && t != [] && h.ts <= t[0].ts
    ensures SortedByTs([h] + t)
  {
    var r := [h] + t;
    forall i, j | 0 <= i < j < |r| ensures r[i].ts <= r[j].ts {
      if i == 0 {
        assert t[0].ts <= t[j - 1].ts;
      } else {
        assert r[i] == t[i - 1] && r[j] == t[j - 1];
      }
    }
  }

  /** `ORDER BY ts ASC`: a permutation of the rows, non-decreasing in ts.
      Rows with equal ts keep their log order (SQL leaves that order open). */
  function SortByTs(s: seq<Row>): (r: seq<Row>)
    ensures SortedByTs(r)
    ensures multiset(r) == multiset(s)
    ensures |r| == |s|
    decreases |s|
  {
    if s == [] then []
    else
      assert s == [s[0]] + s[1..];
      InsertByTs(s[0], SortByTs(s[1..]))
  }

  /** The rows `dm:join` sends back for conversation (a, b). */
  function HistoryRows(log: seq<Msg>, a: int, b: int): (r: seq<Row>)
    ensures SortedByTs(r)
    ensures |r| == Min(Limit, |PairRows(log, a, b)|)
    ensures multiset(r) <= multiset(PairRows(log, a, b))
  {
    var sorted := SortByTs(PairRows(log, a, b));
    var k := Min(Limit, |sorted|);
    SplitMultiset(sorted, k);
    sorted[..k]
  }

  lemma SplitMultiset(s: seq<Row>, k: nat)
    requires k <= |s|
    ensures multiset(s) == multiset(s[..k]) + multiset(s[k..])
  {
    assert s == s[..k] + s[k..];
  }

  /** In a sorted sequence, whatever lies before a cut is no later than
      whatever lies after it. */
  lemma SortedCut(s: seq<Row>, k: nat, x: Row, y: Row)
    requires SortedByTs(s) && k <= |s|
    requires x in s[..k] && y in multiset(s[k..])
    ensures x.ts <= y.ts
  {
    var i :| 0 <= i < k && s[..k][i] == x;
    var j :| 0 <= j < |s| - k && s[k..][j] == y;
    assert s[i] == x && s[k + j] == y;
  }

  /* ---------------- properties ---------------- */

  /** A row belongs to the pair's rows exactly when some log entry of that
      conversation projects to it. */
  lemma {:induction false} PairRowsMembership(log: seq<Msg>, a: int, b: int, row: Row)
    ensures row in PairRows(log, a, b) <==>
              exists i :: 0 <= i < |log| && InPair(log[i], a, b) && Project(log[i]) == row
    decreases |log|
  {
    if log != [] {
      var init := log[..|log| - 1];
      PairRowsMembership(init, a, b, row);
      if row in PairRows(init, a, b) {
        var i :| 0 <= i < |init| && InPair(init[i], a, b) && Project(init[i]) == row;
        assert log[i] == init[i];
      }
      if exists i :: 0 <= i < |log| && InPair(log[i], a, b) && Project(log[i]) == row {
        var i :| 0 <= i < |log| && InPair(log[i], a, b) && Project(log[i]) == row;
        if i < |init| {
          assert init[i] == log[i];
        }
      }
    }
  }

  /** Appending to the log extends the pair's rows by that entry when it
      belongs to the pair, and leaves them alone otherwise. */
  lemma PairRowsAppend(log: seq<Msg>, m: Msg, a: int, b: int)
    ensures PairRows(log + [m], a, b) == PairRows(log, a, b) + (if InPair(m, a, b) then [Project(m)] else [])
  {
    assert (log + [m])[..|log|] == log;
  }

  /** The history holds only rows of the requested conversation. */
  lemma HistoryOnlyFromPair(log: seq<Msg>, a: int, b: int, row: Row)
    requires row in HistoryRows(log, a, b)
    ensures exists i :: 0 <= i < |log| && InPair(log[i], a, b) && Project(log[i]) == row
  {
    assert row in multiset(HistoryRows(log, a, b));
    assert row in multiset(PairRows(log, a, b));
    PairRowsMembership(log, a, b, row);
  }

  /** LIMIT applies after ORDER BY ts ASC: every row left out is no
      earlier than any row returned, so the answer is the EARLIEST 200. */
  lemma HistoryIsEarliest(log: seq<Msg>, a: int, b: int, x: Row, y: Row)
    requires x in HistoryRows(log, a, b)
    requires y in multiset(PairRows(log, a, b)) - multiset(HistoryRows(log, a, b))
    ensures x.ts <= y.ts
  {
    var sorted := SortByTs(PairRows(log, a, b));
    var k := Min(Limit, |sorted|);
    SplitMultiset(sorted, k);
    SortedCut(sorted, k, x, y);
  }

  /** A conversation with at most 200 messages is returned whole. */
  lemma ShortHistoryIsComplete(log: seq<Msg>, a: int, b: int)
    requires |PairRows(log, a, b)| <= Limit
    ensures multiset(HistoryRows(log, a, b)) == multiset(PairRows(log, a, b))
  {
    var sorted := SortByTs(PairRows(log, a, b));
    assert sorted[..|sorted|] == sorted;
  }

  /** Once the rows hold `Limit` rows strictly earlier than `x` (as a
      sub-multiset `before`), `x` sorts past the cut and is left out,
      whatever else the rows hold. */
  lemma NewestBeyondLimit(all: seq<Row>, before: seq<Row>, x: Row)
    requires multiset(before) <= multiset(all)
    requires |before| >= Limit
    requires forall k :: 0 <= k < |before| ==> before[k].ts < x.ts
    ensures var sorted := SortByTs(all); |sorted| >= Limit && x !in sorted[..Limit]
  {
    var sorted := SortByTs(all);
    SubMultisetSize(multiset(before), multiset(sorted));
    forall p | 0 <= p < Limit ensures sorted[p] != x {
      if sorted[p] == x {
        EarlierBeforeIndex(sorted, before, p);
      }
    }
  }

  /** In a sorted sequence, the rows strictly earlier than the row at `p`
      all lie before `p`, so there are at most `p` of them. */
  lemma EarlierBeforeIndex(sorted: seq<Row>, before: seq<Row>, p: nat)
    requires SortedByTs(sorted) && p < |sorted|
    requires multiset(before) <= multiset(sorted)
    requires forall k :: 0 <= k < |before| ==> before[k].ts < sorted[p].ts
    ensures multiset(before) <= multiset(sorted[..p])
    ensures |before| <= p
  {
    SplitMultiset(sorted, p);
    forall y | y in multiset(before) ensures multiset(before)[y] <= multiset(sorted[..p])[y] {
      assert y.ts < sorted[p].ts;
      assert y !in sorted[p..];
    }
    SubMultisetSize(multiset(before), multiset(sorted[..p]));
  }

  lemma SubMultisetSize(small: multiset<Row>, big: multiset<Row>)
    requires small <= big
    ensures |small| <= |big|
  {
    assert big == small + (big - small);
  }

  /** After `Limit` earlier rows of its conversation, a stored record never
      appears in that conversation's history, however the log grows later. */
  lemma NewestNeverReturned(log: seq<Msg>, rec: Msg, tail: seq<Msg>, a: int, b: int)
    requires InPair(rec, a, b)
    requires |PairRows(log, a, b)| >= Limit
    requires forall k :: 0 <= k < |PairRows(log, a, b)| ==> PairRows(log, a, b)[k].ts < rec.ts
    ensures Project(rec) !in HistoryRows(log + [rec] + tail, a, b)
  {
    var before := PairRows(log, a, b);
    var rest := [Project(rec)] + PairRows(tail, a, b);
    var all := PairRows(log + [rec] + tail, a, b);
    PairRowsAround(log, rec, tail, a, b);
    assert multiset(all) == multiset(before) + multiset(rest);
    NewestBeyondLimit(all, before, Project(rec));
  }

  lemma PairRowsAround(log: seq<Msg>, rec: Msg, tail: seq<Msg>, a: int, b: int)
    requires InPair(rec, a, b)
    ensures PairRows(log + [rec] + tail, a, b) == PairRows(log, a, b) + ([Project(rec)] + PairRows(tail, a, b))
  {
    PairRowsAppend(log, rec, a, b);
    PairRowsConcat(log + [rec], tail, a, b);
  }

  /** The pair's rows of a concatenated log are those of each part, in order. */
  lemma {:induction false} PairRowsConcat(l1: seq<Msg>, l2: seq<Msg>, a: int, b: int)
    ensures PairRows(l1 + l2, a, b) == PairRows(l1, a, b) + PairRows(l2, a, b)
    decreases |l2|
  {
    if l2 == [] {
      assert l1 + l2 == l1;
    } else {
      var init := l2[..|l2| - 1];
      var last := l2[|l2| - 1];
      var lastRows := if InPair(last, a, b) then [Project(last)] else [];
      PairRowsConcat(l1, init, a, b);
      assert (l1 + l2)[..|l1 + l2| - 1] == l1 + init;
      assert PairRows(l1 + l2, a, b) == PairRows(l1 + init, a, b) + lastRows;
      assert PairRows(l2, a, b) == PairRows(init, a, b) + lastRows;
    }
  }
}

=== FILE: js.dfy ===
/** JavaScript values the server's decision logic depends on: optional
    (undefined/null) values, the result of `Number(...)` restricted to
    integers and NaN, `Math.min`/`Math.max`, and the decimal text an
    integer produces inside a template literal. */
module Js {

  /** A value that may be `undefined` or `null`. */
  datatype Option<+T> = None | Some(value: T) {
    /** `x || default` for a value whose only falsy form is absence. */
    function GetOr(default: T): T {
      match this
      case Some(v) => v
      case None => default
    }
  }

  /** The result of `Number(x)` on a request field: an integer or NaN.
      Fractional numbers and infinities are outside the model. */
  datatype Num = Int(v: int) | NaN

  /** JavaScript truthiness of a number: `!n` holds exactly for 0 and NaN. */
  predicate Truthy(n: Num) {
    n.Int? && n.v != 0
  }

  function Min(a: int, b: int): (r: int)
    ensures r <= a && r <= b
    ensures r == a || r == b
  {
    if a <= b then a else b
  }

  function Max(a: int, b: int): (r: int)
    ensures r >= a && r >= b
    ensures r == a || r == b
  {
    if a <= b then b else a
  }

  /* ---------------- decimal text of an integer ---------------- */

  predicate IsDigit(c: char) {
    '0' <= c <= '9'
  }

  predicate AllDigits(s: string) {
    forall i :: 0 <= i < |s| ==> IsDigit(s[i])
  }

  function DigitChar(d: int): (c: char)
    requires 0 <= d < 10
    ensures IsDigit(c)
    ensures c as int - '0' as int == d
  {
    "0123456789"[d]
  }

  function DigitValue(c: char): (d: nat)
    requires IsDigit(c)
    ensures d < 10
    ensures DigitChar(d) == c
  {
    c as int - '0' as int
  }

  /** Shortest decimal numeral of a natural number (no leading zeros). */
  function NatToString(n: nat): (s: string)
    ensures |s| >= 1
    ensures AllDigits(s)
    ensures s[0] == '0' ==> n == 0
    decreases n
  {
    if n < 10 then [DigitChar(n)] else NatToString(n / 10) + [DigitChar(n % 10)]
  }

  /** The numeral a template literal `${n}` yields for a safe integer `n`
      (|n| < 2^53), which is the range of ids this model covers. From 10^21
      on JavaScript switches to exponent form ("1e+21"); that form is not
      modelled. */
  function IntToString(n: int): (s: string)
    ensures |s| >= 1
    ensures ':' !in s
    ensures n >= 0 ==> AllDigits(s) && (s[0] == '0' ==> |s| == 1)
    ensures n < 0 ==> |s| >= 2 && s[0] == '-' && AllDigits(s[1..]) && s[1] != '0'
  {
    if n < 0 then "-" + NatToString(-n) else NatToString(n)
  }

  /** Reads a string of decimal digits. */
  function StringToNat(s: string): nat
    requires AllDigits(s)
    decreases |s|
  {
    if |s| == 0 then 0 else StringToNat(s[..|s| - 1]) * 10 + DigitValue(s[|s| - 1])
  }

  /** Reads an optionally negative decimal numeral; None for anything else. */
  function StringToInt(s: string): Option<int> {
    if |s| >= 2 && s[0] == '-' && AllDigits(s[1..]) then Some(0 - StringToNat(s[1..]) as int)
    else if |s| >= 1 && AllDigits(s) then Some(StringToNat(s))
    else None
  }

  lemma {:induction false} NatStringRoundTrip(n: nat)
    ensures StringToNat(NatToString(n)) == n
    decreases n
  {
    if n >= 10 {
      var s := NatToString(n);
      NatStringRoundTrip(n / 10);
      assert s[..|s| - 1] == NatToString(n / 10);
      assert s[|s| - 1] == DigitChar(n % 10);
    }
  }

  /** Reading back the numeral of any integer gives that integer. */
  lemma IntStringRoundTrip(n: int)
    ensures StringToInt(IntToString(n)) == Some(n)
  {
    if n < 0 {
      NegativeRoundTrip(-n);
    } else {
      NonNegativeRoundTrip(n);
    }
  }

  lemma NonNegativeRoundTrip(m: nat)
    ensures StringToInt(NatToString(m)) == Some(m)
  {
    var s := NatToString(m);
    NatStringRoundTrip(m);
    assert s[0] != '-';
  }

  lemma NegativeRoundTrip(m: nat)
    requires m > 0
    ensures StringToInt("-" + NatToString(m)) == Some(0 - m)
  {
    var s := "-" + NatToString(m);
    assert s[1..] == NatToString(m);
    NatStringRoundTrip(m);
  }

  /** Distinct integers have distinct numerals. */
  lemma IntToStringInjective(a: int, b: int)
    ensures IntToString(a) == IntToString(b) <==> a == b
  {
    IntStringRoundTrip(a);
    IntStringRoundTrip(b);
  }
}

=== FILE: roomies.dfy ===
/** The `/api/roomies` query: a fixed base statement plus one `AND` clause
    per filled-in filter (city, style, maximum budget), each clause with one
    `?` placeholder and one matching entry in the parameter list. */
module Roomies {
  import opened Js

  /** A value bound to a placeholder. */
  datatype Param = IdParam(id: int) | TextParam(text: string) | NumParam(n: Num)

  datatype Query = Query(sql: string, params: seq<Param>)

  /** One condition of the WHERE clause: `<column> <op> ?` bound to `value`. */
  datatype Cond = Cond(column: string, op: string, value: Param)

  const Select := "SELECT p.* FROM profiles p WHERE "

  /** A query-string value is truthy: present and non-empty. */
  predicate Filled(v: Option<string>) {
    v.Some? && v.value != ""
  }

  /** `if (filter) { sql += clause; params.push(param); }` */
  function AddIf(q: Query, filled: bool, clause: string, param: Param): Query {
    if filled then Query(q.sql + clause, q.params + [param]) else q
  }

  /** `<column> <op> ?` */
  function Clause(c: Cond): string {
    c.column + " " + c.op + " ?"
  }

  function UserCond(me: int): Cond { Cond("p.user_id", "!=", IdParam(me)) }
  function CityCond(city: string): Cond { Cond("p.ciudad", "=", TextParam(city)) }
  function StyleCond(style: string): Cond { Cond("p.estilo", "=", TextParam(style)) }
  function BudgetCond(max: Num): Cond { Cond("p.presupuesto", "<=", NumParam(max)) }

  /** The statement and parameters as the handler assembles them: the base
      statement excludes the caller, then one clause per filled filter in
      the order city, style, maximum budget. `toNumber` stands for
      JavaScript's `Number(...)`. */
  function RoomiesQuery(me: int, city: Option<string>, style: Option<string>, maxBudget: Option<string>,
                        toNumber: string -> Num): (q: Query)
    ensures Placeholders(q.sql) == |q.params|
    ensures |q.params| == 1 + (if Filled(city) then 1 else 0) + (if Filled(style) then 1 else 0)
                            + (if Filled(maxBudget) then 1 else 0)
    ensures q.params[0] == IdParam(me)
  {
    var cCity := CityCond(city.GetOr(""));
    var cStyle := StyleCond(style.GetOr(""));
    var cBudget := BudgetCond(toNumber(maxBudget.GetOr("")));
    var q0 := Query(Select + Clause(UserCond(me)), [IdParam(me)]);
    var q1 := AddIf(q0, Filled(city), " AND " + Clause(cCity), cCity.value);
    var q2 := AddIf(q1, Filled(style), " AND " + Clause(cStyle), cStyle.value);
    var q3 := AddIf(q2, Filled(maxBudget), " AND " + Clause(cBudget), cBudget.value);
    SelectHasNoPlaceholder();
    AndClause(UserCond(me), Select);
    AddIfKeepsCount(q0, Filled(city), cCity);
    AddIfKeepsCount(q1, Filled(style), cStyle);
    AddIfKeepsCount(q2, Filled(maxBudget), cBudget);
    q3
  }

  /* ---------------- reference: the conditions, rendered ---------------- */

  /** The conditions the request asks for, in the order they are added. */
  function Conditions(me: int, city: Option<string>, style: Option<string>, maxBudget: Option<string>,
                      toNumber: string -> Num): seq<Cond>
  {
    [UserCond(me)]
    + (if Filled(city) then [CityCond(city.value)] else [])
    + (if Filled(style) then [StyleCond(style.value)] else [])
    + (if Filled(maxBudget) then [BudgetCond(toNumber(maxBudget.value))] else [])
  }

  /** The conditions joined with " AND ". */
  function RenderConds(cs: seq<Cond>): string
    decreases |cs|
  {
    if |cs| == 0 then ""
    else if |cs| == 1 then Clause(cs[0])
    else RenderConds(cs[..|cs| - 1]) + " AND " + Clause(cs[|cs| - 1])
  }

  function Values(cs: seq<Cond>): (ps: seq<Param>)
    ensures |ps| == |cs|
    ensures forall i :: 0 <= i < |cs| ==> ps[i] == cs[i].value
  {
    seq(|cs|, i requires 0 <= i < |cs| => cs[i].value)
  }

  /** Number of `?` placeholders. */
  function Placeholders(s: string): nat
    decreases |s|
  {
    if |s| == 0 then 0 else Placeholders(s[..|s| - 1]) + (if s[|s| - 1] == '?' then 1 else 0)
  }

  lemma {:induction false} CountAppend(s: string, t: string)
    ensures Placeholders(s + t) == Placeholders(s) + Placeholders(t)
    decreases |t|
  {
    if t == [] {
      assert s + t == s;
    } else {
      var t' := t[..|t| - 1];
      CountAppend(s, t');
      assert (s + t)[..|s + t| - 1] == s + t';
    }
  }

  lemma {:induction false} NoPlaceholders(s: string)
    requires '?' !in s
    ensures Placeholders(s) == 0
    decreases |s|
  {
    if s != [] {
      assert forall c :: c in s[..|s| - 1] ==> c in s;
      NoPlaceholders(s[..|s| - 1]);
    }
  }

  lemma SelectHasNoPlaceholder()
    ensures Placeholders(Select) == 0
  {
    assert Select == "SELECT p.* FROM " + "profiles p WHERE ";
    assert '?' !in "SELECT p.* FROM ";
    assert '?' !in "profiles p WHERE ";
    NoPlaceholders(Select);
  }

  /** One filter step keeps the placeholders in step with the params. */
  lemma AddIfKeepsCount(q: Query, filled: bool, c: Cond)
    requires c.column in {"p.user_id", "p.ciudad", "p.estilo", "p.presupuesto"}
    requires c.op in {"!=", "=", "<="}
    requires Placeholders(q.sql) == |q.params|
    ensures var r := AddIf(q, filled, " AND " + Clause(c), c.value);
      Placeholders(r.sql) == |r.params|
  {
    if filled {
      NoPlaceholders(" AND ");
      AndClause(c, " AND ");
      CountAppend(q.sql, " AND " + Clause(c));
    }
  }

  /** A clause of one of the four conditions, after a placeholder-free
      prefix, carries exactly one placeholder. */
  lemma AndClause(c: Cond, prefix: string)
    requires c.column in {"p.user_id", "p.ciudad", "p.estilo", "p.presupuesto"}
    requires c.op in {"!=", "=", "<="}
    requires Placeholders(prefix) == 0
    ensures Placeholders(prefix + Clause(c)) == 1
  {
    var head := c.column + " " + c.op + " ";
    assert '?' !in head;
    NoPlaceholders(head);
    assert Clause(c) == head + "?";
    CountAppend(head, "?");
    CountAppend(prefix, Clause(c));
  }

  /** One filter step keeps the query in step with its list of conditions. */
  lemma AddIfRenders(q: Query, cs: seq<Cond>, filled: bool, c: Cond)
    requires |cs| >= 1 && q.sql == Select + RenderConds(cs) && q.params == Values(cs)
    ensures var cs' := cs + (if filled then [c] else []);
      var r := AddIf(q, filled, " AND " + Clause(c), c.value);
      r.sql == Select + RenderConds(cs') && r.params == Values(cs')
  {
    if filled {
      var cs' := cs + [c];
      assert cs'[..|cs'| - 1] == cs;
      assert RenderConds(cs') == RenderConds(cs) + " AND " + Clause(c);
      assert Values(cs') == Values(cs) + [c.value];
    } else {
      assert cs + [] == cs;
    }
  }

  /** The assembled statement is the SELECT followed by the requested
      conditions joined with AND, and the i-th parameter is the value of
      the i-th condition: each placeholder is bound to its own filter. */
  lemma RoomiesQueryRendersConditions(me: int, city: Option<string>, style: Option<string>,
                                      maxBudget: Option<string>, toNumber: string -> Num)
    ensures var q := RoomiesQuery(me, city, style, maxBudget, toNumber);
      var cs := Conditions(me, city, style, maxBudget, toNumber);
      q.sql == Select + RenderConds(cs) && q.params == Values(cs)
  {
    var cCity := CityCond(city.GetOr(""));
    var cStyle := StyleCond(style.GetOr(""));
    var cBudget := BudgetCond(toNumber(maxBudget.GetOr("")));
    var c0 := [UserCond(me)];
    var c1 := c0 + (if Filled(city) then [cCity] else []);
    var c2 := c1 + (if Filled(style) then [cStyle] else []);
    var c3 := c2 + (if Filled(maxBudget) then [cBudget] else []);
    assert c3 == Conditions(me, city, style, maxBudget, toNumber);
    var q0 := Query(Select + Clause(UserCond(me)), [IdParam(me)]);
    assert q0.params == Values(c0);
    AddIfRenders(q0, c0, Filled(city), cCity);
    var q1 := AddIf(q0, Filled(city), " AND " + Clause(cCity), cCity.value);
    AddIfRenders(q1, c1, Filled(style), cStyle);
    var q2 := AddIf(q1, Filled(style), " AND " + Clause(cStyle), cStyle.value);
    AddIfRenders(q2, c2, Filled(maxBudget), cBudget);
  }

  /** With no filters only the caller is excluded. */
  lemma NoFiltersQuery(me: int, toNumber: string -> Num)
    ensures RoomiesQuery(me, None, None, None, toNumber)
         == Query(Select + "p.user_id != ?", [IdParam(me)])
  {
  }
}

=== FILE: rooms.dfy ===
/** Conversation addressing: the canonical room of a two-party conversation
    (`dmRoom`) and the per-user inbox room joined on connection. */
module Rooms {
  import opened Js

  const DmPrefix := "dm:"
  const UserPrefix := "user:"

  /** `dmRoom(a, b)`: "dm:" + min + ":" + max. */
  function DmRoom(a: int, b: int): (r: string)
    ensures |r| > |DmPrefix| && r[..|DmPrefix|] == DmPrefix
  {
    DmPrefix + IntToString(Min(a, b)) + ":" + IntToString(Max(a, b))
  }

  /** The inbox room `user:<id>` every connection of user `u` joins. */
  function UserRoom(u: int): (r: string)
    ensures |r| > |UserPrefix| && r[..|UserPrefix|] == UserPrefix
  {
    UserPrefix + IntToString(u)
  }

  /** First position of `c` in `s`, or `|s|` when `c` does not occur. */
  function IndexOf(s: string, c: char): (k: nat)
    ensures k <= |s|
    ensures forall i :: 0 <= i < k ==> s[i] != c
    ensures k < |s| ==> s[k] == c
    decreases |s|
  {
    if |s| == 0 then 0 else if s[0] == c then 0 else 1 + IndexOf(s[1..], c)
  }

  /** Reads a conversation room name back into its (low, high) pair. */
  function ParseDmRoom(name: string): Option<(int, int)> {
    if |name| < |DmPrefix| || name[..|DmPrefix|] != DmPrefix then None
    else
      var rest := name[|DmPrefix|..];
      var k := IndexOf(rest, ':');
      if k == |rest| then None
      else
        match (StringToInt(rest[..k]), StringToInt(rest[k + 1..]))
        case (Some(a), Some(b)) => Some((a, b))
        case _ => None
  }

  /** Reads an inbox room name back into its user id. */
  function ParseUserRoom(name: string): Option<int> {
    if |name| < |UserPrefix| || name[..|UserPrefix|] != UserPrefix then None
    else StringToInt(name[|UserPrefix|..])
  }

  /** A room name produced by `DmRoom` for some pair. */
  predicate IsDmRoom(name: string) {
    ParseDmRoom(name).Some?
  }

  lemma IndexOfSeparator(x: string, y: string)
    requires ':' !in x
    ensures IndexOf(x + ":" + y, ':') == |x|
  {
    var s := x + ":" + y;
    assert s[|x|] == ':';
  }

  /** The conversation room names its canonical pair, in that order. */
  lemma DmRoomRoundTrip(a: int, b: int)
    ensures ParseDmRoom(DmRoom(a, b)) == Some((Min(a, b), Max(a, b)))
  {
    var lo, hi := IntToString(Min(a, b)), IntToString(Max(a, b));
    var name := DmRoom(a, b);
    var rest := name[|DmPrefix|..];
    assert rest == lo + ":" + hi;
    IndexOfSeparator(lo, hi);
    assert rest[..|lo|] == lo;
    assert rest[|lo| + 1..] == hi;
    IntStringRoundTrip(Min(a, b));
    IntStringRoundTrip(Max(a, b));
  }

  lemma UserRoomRoundTrip(u: int)
    ensures ParseUserRoom(UserRoom(u)) == Some(u)
  {
    assert UserRoom(u)[|UserPrefix|..] == IntToString(u);
    IntStringRoundTrip(u);
  }

  /** Order independence: both participants address the same room. */
  lemma DmRoomSymmetric(a: int, b: int)
    ensures DmRoom(a, b) == DmRoom(b, a)
  {
  }

  /** Two pairs share a room exactly when they are the same unordered pair. */
  lemma DmRoomInjective(a: int, b: int, c: int, d: int)
    ensures DmRoom(a, b) == DmRoom(c, d) <==> Min(a, b) == Min(c, d) && Max(a, b) == Max(c, d)
  {
    DmRoomRoundTrip(a, b);
    DmRoomRoundTrip(c, d);
  }

  /** Distinct users have distinct inboxes. */
  lemma UserRoomInjective(u: int, w: int)
    ensures UserRoom(u) == UserRoom(w) <==> u == w
  {
    UserRoomRoundTrip(u);
    UserRoomRoundTrip(w);
  }

  /** An inbox is never a conversation room, so the two kinds never mix. */
  lemma UserRoomIsNotDmRoom(u: int)
    ensures !IsDmRoom(UserRoom(u))
  {
    var name := UserRoom(u);
    assert name[0] == 'u';
    assert name[..|DmPrefix|][0] == 'u';
  }
}

=== FILE: text.dfy ===
/** `String.prototype.trim` as section 22.1.3.32 of ECMA-262 defines it:
    strip WhiteSpace and LineTerminator code points from both ends. */
module Text {

  /** WhiteSpace (TAB, VT, FF, ZWNBSP, any Zs code point) or LineTerminator
      (LF, CR, LS, PS), sections 12.2 and 12.3 of ECMA-262. */
  predicate IsWhiteSpace(c: char) {
    || c == '\t' || c == '\U{000B}' || c == '\U{000C}' || c == '\U{FEFF}'
    || c == ' ' || c == '\U{00A0}' || c == '\U{1680}' || ('\U{2000}' <= c <= '\U{200A}')
    || c == '\U{202F}' || c == '\U{205F}' || c == '\U{3000}'
    || c == '\n' || c == '\r' || c == '\U{2028}' || c == '\U{2029}'
  }

  predicate AllWhiteSpace(s: string) {
    forall i :: 0 <= i < |s| ==> IsWhiteSpace(s[i])
  }

  /** Neither end of `s` is white space (vacuous for the empty string). */
  predicate Trimmed(s: string) {
    s == [] || (!IsWhiteSpace(s[0]) && !IsWhiteSpace(s[|s| - 1]))
  }

  /** Length of the leading run of white space. */
  function LeadingSpace(s: string): (n: nat)
    ensures n <= |s|
    ensures AllWhiteSpace(s[..n])
    ensures n < |s| ==> !IsWhiteSpace(s[n])
    decreases |s|
  {
    if |s| > 0 && IsWhiteSpace(s[0]) then
      var n := 1 + LeadingSpace(s[1..]);
      assert forall i :: 1 <= i < n ==> s[..n][i] == s[1..][..n - 1][i - 1];
      n
    else 0
  }

  /** Length of the trailing run of white space. */
  function TrailingSpace(s: string): (n: nat)
    ensures n <= |s|
    ensures AllWhiteSpace(s[|s| - n..])
    ensures n < |s| ==> !IsWhiteSpace(s[|s| - n - 1])
    decreases |s|
  {
    if |s| > 0 && IsWhiteSpace(s[|s| - 1]) then
      var init := s[..|s| - 1];
      var n := 1 + TrailingSpace(init);
      assert s[|s| - n..] == init[|init| - (n - 1)..] + [s[|s| - 1]];
      n
    else 0
  }

  /** `str.trim()`. */
  function Trim(s: string): (r: string)
    ensures Trimmed(r)
    ensures |r| <= |s|
  {
    var t := s[LeadingSpace(s)..];
    t[..|t| - TrailingSpace(t)]
  }

  /** Trim removes exactly white space, and only from the two ends: the
      input is white space, then the result, then white space. */
  lemma TrimDecomposes(s: string)
    ensures exists i ::
              && 0 <= i <= |s| - |Trim(s)|
              && s[i..i + |Trim(s)|] == Trim(s)
              && AllWhiteSpace(s[..i])
              && AllWhiteSpace(s[i + |Trim(s)|..])
  {
    var i := LeadingSpace(s);
    var t := s[i..];
    var n := TrailingSpace(t);
    assert Trim(s) == t[..|t| - n];
    assert s[i..i + |Trim(s)|] == Trim(s);
    assert s[i + |Trim(s)|..] == t[|t| - n..];
  }

  /** The result is empty exactly when the input is all white space, which
      is when the source treats the text as missing. */
  lemma TrimEmptyIff(s: string)
    ensures Trim(s) == [] <==> AllWhiteSpace(s)
  {
    if AllWhiteSpace(s) {
      AllWhiteSpaceTrimsEmpty(s);
    }
    if Trim(s) == [] {
      EmptyTrimIsAllWhiteSpace(s);
    }
  }

  lemma AllWhiteSpaceTrimsEmpty(s: string)
    requires AllWhiteSpace(s)
    ensures Trim(s) == []
  {
    var i := LeadingSpace(s);
    assert i == |s|;
  }

  lemma EmptyTrimIsAllWhiteSpace(s: string)
    requires Trim(s) == []
    ensures AllWhiteSpace(s)
  {
    var i := LeadingSpace(s);
    var t := s[i..];
    var n := TrailingSpace(t);
    assert |t| - n == 0;
    assert t[|t| - n..] == t;
    assert i == |s|;
    assert s[..i] == s;
  }

  /** A string already trimmed is its own trim. */
  lemma TrimOfTrimmed(s: string)
    requires Trimmed(s)
    ensures Trim(s) == s
  {
    assert LeadingSpace(s) == 0;
    assert s[0..] == s;
    assert TrailingSpace(s) == 0;
  }

  /** Trimming twice is trimming once. */
  lemma TrimIdempotent(s: string)
    ensures Trim(Trim(s)) == Trim(s)
  {
    TrimOfTrimmed(Trim(s));
  }

  /** Uniqueness: any split of `s` into white space, a trimmed middle and
      white space has the trim as its middle. */
  lemma TrimUnique(p: string, m: string, q: string)
    requires AllWhiteSpace(p) && AllWhiteSpace(q) && Trimmed(m) && m != []
    ensures Trim(p + m + q) == m
  {
    var s := p + m + q;
    LeadingIs(s, |p|);
    var t := s[|p|..];
    assert t == m + q;
    TrailingIs(t, |q|);
    assert t[..|t| - |q|] == m;
  }

  lemma LeadingIs(s: string, k: nat)
    requires k < |s| && AllWhiteSpace(s[..k]) && !IsWhiteSpace(s[k])
    ensures LeadingSpace(s) == k
  {
  }

  lemma TrailingIs(s: string, k: nat)
    requires k < |s| && AllWhiteSpace(s[|s| - k..]) && !IsWhiteSpace(s[|s| - k - 1])
    ensures TrailingSpace(s) == k
  {
  }
}
